=== FILE: README.md ===
# Labour Insurance old-age pension estimator — Dafny model

This project models the calculation core of a Taiwanese Labour Insurance old-age pension estimator:

- the salary-grade table and the salary-to-grade lookup;
- the statutory retirement age by Minguo (ROC) birth year;
- the monthly amount of one claiming option;
- the two-option comparison (`calculatePension`);
- the pure decisions the calculator form makes around them: which keystrokes are kept, the grade derived from the current salary, the insured-years check, and the four scenarios (current grade or projected grade, each over the insured years and over five more years).

Modules:

- `Wrappers`: `Option`. `None` stands for JavaScript `NaN`/`undefined`.
- `Decimal`: digit strings. It covers the form's `/^\d+$/` filter, `parseInt`/`parseFloat` on such strings, and `toString` of numbers.
- `Grades`: `LABOR_INSURANCE_GRADES` and `getInsuranceGrade`.
- `RetirementAge`: `getStatutoryRetirementAge`.
- `Pension`: `PensionOption`, `CalculationResult`, `calculateOptionAmount` and `calculatePension`.
- `Form`: the state handling in `App.tsx`. Each React effect becomes the pure function it computes.

All arithmetic is exact.

- The accrual rate 1.55% times the multiplier `1 + 0.04·diff` is `155 · p / 1 000 000`, where `p = 100 + 4·diff` is the multiplier in percent (`AdjustmentPercent`, between 80 and 120).
- `Math.round` of a non-negative value `n / 1 000 000` is `(2n + 1 000 000) / 2 000 000` (`RoundMillionths`). This is the nearest whole number, with halves rounded up.

Parsed inputs are `Option<nat>` (`ParseNumber`). The form only ever holds empty or all-digit strings, and those are the strings modelled. The retirement-age argument of `calculatePension` is an `Option<int>`.

- `None` covers `parseInt(undefined)`. Every call in `App.tsx` omits this argument.
- `Some(0)` covers the zero case.

Both fall back to 60, so in practice every scenario compares claiming at 60 with claiming at 65.

The retirement age only matters through the claim age of option 1, and option 2 is always five years after the effective start age, so the two options are 60 and 65 in every scenario the form computes. Option 1 carries the sub-label `(依規定60歲起領)` only when the user age is below 60; option 2 always carries `(往後+5年)`.

45800 × 35 × 1.55% is exactly 24846.5, which `Math.round` takes up to 24847; at 60 the same salary and years pay round(19877.2) = 19877 (`OptionAmountExamples`).

## Model

| member | source | states |
|---|---|---|
| Decimal.NatToString | App.tsx:92 | `toString` of a natural number below 10^21 is a non-empty digit string with no leading zero (except "0" itself) |
| Decimal.IntToString | utils/calculation.ts:106-112 | `${n}` of an integer in a label is a digit string for n ≥ 0 and a minus sign followed by a digit string for n < 0, and the digits parse back to the magnitude |
| Decimal.ParseNumber | App.tsx:57-59 | a string parses to a number exactly when it is a non-empty digit string, which is what `/^\d+$/` admits |
| Decimal.DigitsValueOfNatToString | App.tsx:92-93 | the digits `toString` writes denote the number written |
| Decimal.ParseNumberOfNatToString | App.tsx:82-83 | writing a number as text and parsing it back, as the scenarios do with the grade and with years+5, gives the same number |
| Grades.TableShape | utils/calculation.ts:6-10 | the grade table has 13 strictly ascending positive ceilings and ends at the cap 45800 |
| Grades.FindAtLeast | utils/calculation.ts:14 | `find(g => g >= s)` returns an entry ≥ s with every earlier entry < s, and returns nothing exactly when every entry is < s |
| Grades.Grade | utils/calculation.ts:12-16 | the grade is 0 exactly for a non-positive salary; a positive salary gets a table member; up to 45800 that member is the smallest ceiling ≥ the salary; above 45800 the grade is 45800 |
| Grades.GradeMonotone | utils/calculation.ts:12-16 | a larger salary never gets a smaller grade |
| Grades.GradeIdempotent | utils/calculation.ts:12-16 | for a positive salary, the grade of the grade is the grade |
| Grades.GradeExamples | utils/calculation.ts:6-16 | 27470 maps to 27470; 27471 and 1 map to the next ceiling at or above them; 45800 and 50000 map to 45800 |
| RetirementAge.StatutoryAge | utils/calculation.ts:28-36 | NaN or ≤ 0 gives 65; ≥ 51 gives 65; 50, 49, 48, 47 give 64, 63, 62, 61; 1..46 gives 60; the age is always in [60,65] |
| RetirementAge.StatutoryAgeIsPhaseIn | utils/calculation.ts:18-36 | for valid years the table equals 60 plus the years past 46, at most five |
| RetirementAge.StatutoryAgeMonotone | utils/calculation.ts:18-36 | over positive years, a later birth year never lowers the statutory age |
| Pension.AdjustmentPercent | utils/calculation.ts:53-65 | the multiplier lies in [80%,120%]; it is 80% at or below 60 and 120% from 70; in between it moves 4% per year from 100% at 65 |
| Pension.AdjustmentPercentMonotone | utils/calculation.ts:53-65 | a later claim age never lowers the multiplier |
| Pension.RoundMillionths | utils/calculation.ts:68 | the rounded amount is within half a unit of the exact value; halves round up |
| Pension.RoundMillionthsMonotone | utils/calculation.ts:68 | rounding preserves order |
| Pension.OptionAmount | utils/calculation.ts:45-69 | the amount is the whole number nearest to salary × years × 1.55% × multiplier, and is 0 when salary or years is 0 |
| Pension.OptionAmountBelowSixty | utils/calculation.ts:51-53 | any claim age below 60 pays the same as 60 |
| Pension.OptionAmountFromSeventy | utils/calculation.ts:56-62 | any claim age from 70 on pays the same as 70 |
| Pension.OptionAmountMonotoneInAge | utils/calculation.ts:45-69 | a later claim age never pays less |
| Pension.OptionAmountMonotoneInSalary | utils/calculation.ts:45-69 | a higher salary never pays less |
| Pension.OptionAmountMonotoneInYears | utils/calculation.ts:45-69 | more insured years never pay less |
| Pension.OptionAmountExamples | utils/calculation.ts:45-69 | 30000 over 30 years pays 11160 at 60, 13950 at 65 and 16740 at 70; 45800 over 35 years pays 19877 at 60 and 24847 at 65 |
| Pension.CalculatePension | utils/calculation.ts:71-117 | the result is the empty sentinel exactly when salary or years is unparseable or ≤ 0; otherwise option 1 is at the user's age (60 when missing or 0) and option 2 at max(age,60)+5; option 1 pays `calculateOptionAmount` at its age and option 2 at its age, and option 2 never pays less than option 1; the years are echoed; option 1 has a sub-label exactly when its age is below 60, and that sub-label is `(依規定60歲起領)`; the labels name the ages |
| Pension.UserAge | utils/calculation.ts:78 | the age falls back to 60 when `parseInt` of the retirement age is falsy: the age is never 0; a missing (NaN) or zero age becomes 60, any other age is kept |
| Pension.ValidInputs | utils/calculation.ts:80 | the inputs are valid exactly when salary and years are both digit strings with positive values |
| Pension.EarliestStartNote | utils/calculation.ts:107 | the sub-label for a start age of 60 reads `(依規定60歲起領)` |
| Pension.DefaultComparesSixtyWithSixtyFive | utils/calculation.ts:76-100 | with no retirement age, option 1 is age 60 at 80% of the base (no sub-label) and option 2 is age 65 at 100% of the base |
| Pension.CalculatePensionExample | utils/calculation.ts:71-117 | "30000" over "30" years yields "60歲退休" 11160 against "65歲" 13950 with sub-label (往後+5年), over 30 years |
| Form.InitialStateWellFormed | App.tsx:11-18 | the initial form holds only empty or digit values |
| Form.HandleInputChange | App.tsx:34-41 | the edited field takes the value when it is empty or all digits, and otherwise the form is unchanged; no other field changes; a well-formed form stays well formed |
| Form.AutoGrade | App.tsx:44-52 | there is no grade exactly when the current salary is empty; otherwise the grade is `getInsuranceGrade` of the parsed salary: 0 for a zero salary, else the smallest table ceiling at or above the salary, and 45800 above the cap |
| Form.Message | App.tsx:63-69 | the message is empty exactly when there is no error |
| Form.Validate | App.tsx:55-73 | with any field empty there is no error; otherwise the error is "retirement must exceed start" exactly when retire ≤ start; it is "years exceed span" (carrying both numbers) exactly when retire > start and years > retire − start; there is no error exactly when start < retire and years ≤ retire − start |
| Form.CurrentGradeText | App.tsx:82 | no grade and grade 0 both become a text that parses to 0; a positive grade becomes a text that parses back to the grade |
| Form.Recalculate | App.tsx:76-102 | without a positive grade the current scenarios are empty; with an unparseable or zero projected salary the projected scenarios are empty; without positive years all four are empty; with a positive grade and positive years the current scenarios, and with a positive projected salary and positive years the projected scenarios, are computed over the years and over years+5 |
| Form.ScenarioAmounts | App.tsx:80-100 | with positive years, every computed scenario claims option 1 at 60 with no sub-label and option 2 at 65, because no retirement age is passed; the current scenarios pay the grade's amounts at 60 and 65 over years and years+5, and the projected scenarios pay the projected salary's |
| Form.ExtensionNeverLowersAmounts | App.tsx:89-100 | the years+5 scenarios never pay less than the base scenarios, for either option |
| Form.Derive | App.tsx:44-146 | the statutory age is `getStatutoryRetirementAge` of the parsed birth year (line 146) and lies in [60,65]; the results are the four scenarios recomputed from years, projected salary and auto grade, whatever the validation outcome; the auto grade is absent exactly when the salary is empty; no validation error with all fields present means start + years ≤ retirement |
| Form.ResultsIgnoreValidation | App.tsx:75-102 | the four scenarios depend only on salary, projected salary and years, never on the validation outcome |
| Form.ProjectionComputedDespiteErrors | App.tsx:76-102 | for any form, whatever its validation error, a positive projected salary over positive years yields computed (non-empty) projected and extended scenarios |
| Form.ErrorAndNoErrorShowSameResults | App.tsx:54-102 | a form with a years-exceed-span error and one without it show the same four scenarios |

## Left out

- `formatCurrency` (utils/calculation.ts:119-126) is a wrapper over `Intl.NumberFormat`. Locale formatting is outside the model.
- Pension.OptionAmount: uses exact rational arithmetic, not IEEE-754 doubles. The source multiplies by the binary approximations of 0.0155 and 0.04 before `Math.round`, so an exact half can round the other way there. For example, 45800 × 35 at 65 is exactly 24846.5.
- Decimal.ParseNumber: models `parseInt`/`parseFloat` only on the strings the form can hold, which are empty or all digits. The full prefix grammar is not modelled: "12abc" reads as 12, "-3" as −3, and "1.5" as 1.5 under `parseFloat` but 1 under `parseInt`.
- Decimal.ParseNumber: reads digit strings as exact unbounded naturals. JavaScript numbers are doubles, so digit strings past 2^53 round: with start age "9007199254740992" and retirement age "9007199254740993" and insured years "1", the source parses both ages to the same value and reports the retirement-age error, where `Form.Validate` reports no error.
- Decimal.NatToString: writes plain digits for every natural. JavaScript's `toString` switches to exponent form ("1e+21") from 10^21 on; grades and years+5 from the form stay far below that.
- RetirementAge.StatutoryAge: takes integer birth years only. The source maps a fractional year such as 47.5 to 60, so it is not monotone over fractional years; the form only passes `parseInt` results.
- Grades.Grade: takes integer salaries only. Fractional salaries and `NaN` are not modelled; in the source, `NaN` would yield 45800. The form only supplies parsed digit strings.
- Form.AutoGrade: requires an empty or all-digit salary. The input filter guarantees this, so the `NaN` path is not reachable from the form.
- React state, effects and re-render scheduling are not modelled. `Form.Derive` gives the values the effects settle on.
- The chart rows (`ComparisonData`), the result cards, the print view, the Tailwind classes and `window.open`/`window.print` are not modelled. They are all presentation.
- The components `InputGroup`, `ResultCard`, `ChartSection` and `Logo` are not modelled, for the same reason.

=== FILE: decimal.dfy ===
/**
 * Decimal digit strings: what the form accepts, what `parseInt`/`parseFloat`
 * read back from it, and what `Number.prototype.toString` writes.
 */
module Decimal {
  import opened Wrappers

  predicate IsDigit(c: char) {
    '0' <= c <= '9'
  }

  /** `/^\d+$/`: a non-empty string of ASCII digits. */
  predicate IsDigits(s: string) {
    |s| > 0 && forall i :: 0 <= i < |s| ==> IsDigit(s[i])
  }

  function DigitValue(c: char): (d: nat)
    requires IsDigit(c)
    ensures d < 10
  {
    (c - '0') as nat
  }

  function DigitChar(d: nat): (c: char)
    requires d < 10
    ensures IsDigit(c) && DigitValue(c) == d
  {
    ('0' as int + d) as char
  }

  /** The number a string of digits denotes, most significant digit first. */
  function DigitsValue(s: string): nat
    requires forall i :: 0 <= i < |s| ==> IsDigit(s[i])
  {
    if |s| == 0 then 0
    else DigitsValue(s[..|s| - 1]) * 10 + DigitValue(s[|s| - 1])
  }

  /**
   * Shortest decimal rendering of a natural number, as `toString()` gives it
   * for values below 10^21 (from there JavaScript switches to exponent form).
   */
  function NatToString(n: nat): (s: string)
    ensures IsDigits(s)
    ensures |s| == 1 || s[0] != '0'
  {
    if n < 10 then [DigitChar(n)]
    else NatToString(n / 10) + [DigitChar(n % 10)]
  }

  /** Decimal rendering of an integer, with a leading minus sign when negative. */
  function IntToString(i: int): (s: string)
    ensures |s| > 0
    ensures i >= 0 ==> IsDigits(s)
    ensures i < 0 ==> s[0] == '-' && IsDigits(s[1..])
    ensures i >= 0 ==> ParseNumber(s) == Some(i)
    ensures i < 0 ==> ParseNumber(s[1..]) == Some(-i)
  {
    if i < 0 then
      ParseNumberOfNatToString(-i);
      assert ("-" + NatToString(-i))[1..] == NatToString(-i);
      "-" + NatToString(-i)
    else
      ParseNumberOfNatToString(i);
      NatToString(i)
  }

  /**
   * `parseInt`/`parseFloat` on the strings the form can hold: a digit string
   * reads as its value, the empty string (and anything else) as `NaN`.
   */
  function ParseNumber(s: string): (r: Option<nat>)
    ensures r.Some? <==> IsDigits(s)
  {
    if IsDigits(s) then Some(DigitsValue(s)) else None
  }

  /** Writing a number and reading it back gives the number. */
  lemma {:induction false} DigitsValueOfNatToString(n: nat)
    ensures DigitsValue(NatToString(n)) == n
    decreases n
  {
    var s := NatToString(n);
    if n < 10 {
      assert s[..|s| - 1] == [];
    } else {
      DigitsValueOfNatToString(n / 10);
      assert s[..|s| - 1] == NatToString(n / 10);
    }
  }

  lemma ParseNumberOfNatToString(n: nat)
    ensures ParseNumber(NatToString(n)) == Some(n)
  {
    DigitsValueOfNatToString(n);
  }
}

=== FILE: form.dfy ===
/**
 * The calculator form: which keystrokes are kept, the grade derived from the
 * current salary, the insured-years check, and the four scenarios recomputed
 * whenever the inputs change. Each reactive effect is modelled as the pure
 * function it computes.
 */
module Form {
  import opened Wrappers
  import opened Decimal
  import Grades
  import RetirementAge
  import opened Pension

  datatype Field = BirthYear | WorkStartAge | RetireAge | InsuredYears | CurrentSalary | ProjectedSalary

  datatype CalculatorState = CalculatorState(
    birthYear: string,
    workStartAge: string,
    retirementAge: string,
    insuredYears: string,
    currentSalary: string,
    projectedSalary: string)

  /** The form on first render: everything empty, projected salary at the top grade. */
  const InitialState: CalculatorState := CalculatorState("", "", "", "", "", "45800")

  function Get(s: CalculatorState, f: Field): string {
    match f
    case BirthYear => s.birthYear
    case WorkStartAge => s.workStartAge
    case RetireAge => s.retirementAge
    case InsuredYears => s.insuredYears
    case CurrentSalary => s.currentSalary
    case ProjectedSalary => s.projectedSalary
  }

  /** A value the form will hold: empty, or digits only. */
  predicate Acceptable(v: string) {
    v == "" || IsDigits(v)
  }

  /** Every field of the form holds an acceptable value. */
  predicate WellFormed(s: CalculatorState) {
    && Acceptable(s.birthYear) && Acceptable(s.workStartAge) && Acceptable(s.retirementAge)
    && Acceptable(s.insuredYears) && Acceptable(s.currentSalary) && Acceptable(s.projectedSalary)
  }

  lemma InitialStateWellFormed()
    ensures WellFormed(InitialState)
  {
    assert IsDigits("45800");
  }

  /**
   * `handleInputChange`: the edited field takes the new value when it is empty
   * or all digits; any other value leaves the form as it was.
   */
  function HandleInputChange(s: CalculatorState, f: Field, v: string): (s': CalculatorState)
    ensures Acceptable(v) ==> Get(s', f) == v
    ensures !Acceptable(v) ==> s' == s
    ensures forall g :: g != f ==> Get(s', g) == Get(s, g)
    ensures WellFormed(s) ==> WellFormed(s')
  {
    if !Acceptable(v) then s
    else
      match f
      case BirthYear => s.(birthYear := v)
      case WorkStartAge => s.(workStartAge := v)
      case RetireAge => s.(retirementAge := v)
      case InsuredYears => s.(insuredYears := v)
      case CurrentSalary => s.(currentSalary := v)
      case ProjectedSalary => s.(projectedSalary := v)
  }

  /**
   * The auto-grade effect: no grade while the current salary is empty,
   * otherwise the grade of its value (0 for a zero salary).
   */
  function AutoGrade(currentSalary: string): (g: Option<int>)
    requires Acceptable(currentSalary)
    ensures g.None? <==> currentSalary == ""
    ensures g.Some? ==> (g.value == 0 <==> DigitsValue(currentSalary) == 0)
    ensures g.Some? && g.value != 0 ==> g.value in Grades.Table
    ensures g.Some? && 0 < DigitsValue(currentSalary) <= Grades.MaxGrade ==>
      forall t :: t in Grades.Table && t >= DigitsValue(currentSalary) ==> g.value <= t
    ensures g.Some? && DigitsValue(currentSalary) > Grades.MaxGrade ==> g.value == Grades.MaxGrade
    ensures g.Some? ==> g.value == Grades.Grade(DigitsValue(currentSalary))
  {
    if currentSalary != "" then Some(Grades.Grade(DigitsValue(currentSalary))) else None
  }

  datatype ValidationError = NoError | RetireNotAfterStart | YearsExceedSpan(insured: int, span: int)

  /** The text shown under the insured-years field; empty exactly when there is no error. */
  function Message(e: ValidationError): (m: string)
    ensures m == "" <==> e == NoError
  {
    match e
    case NoError => ""
    case RetireNotAfterStart => "預計退休年紀必須大於開始工作年紀"
    case YearsExceedSpan(insured, span) =>
      "投保年資 (" + IntToString(insured) + "年) 不可大於工作期間 (" + IntToString(span) + "年)"
  }

  /**
   * The validation effect: with all three fields filled in, the retirement age
   * must exceed the starting age, and the insured years may not exceed the
   * span between them; an empty field means no error.
   */
  function Validate(workStartAge: string, retirementAge: string, insuredYears: string): (e: ValidationError)
    requires Acceptable(workStartAge) && Acceptable(retirementAge) && Acceptable(insuredYears)
    ensures workStartAge == "" || retirementAge == "" || insuredYears == "" ==> e == NoError
    ensures workStartAge != "" && retirementAge != "" && insuredYears != "" ==>
      var work := DigitsValue(workStartAge);
      var retire := DigitsValue(retirementAge);
      var insured := DigitsValue(insuredYears);
      && (e == RetireNotAfterStart <==> retire <= work)
      && (e.YearsExceedSpan? <==> work < retire && retire - work < insured)
      && (e == NoError <==> work < retire && insured <= retire - work)
      && (e.YearsExceedSpan? ==> e.insured == insured && e.span == retire - work)
  {
    if workStartAge != "" && retirementAge != "" && insuredYears != "" then
      var work := DigitsValue(workStartAge);
      var retire := DigitsValue(retirementAge);
      var insured := DigitsValue(insuredYears);
      var maxPossibleYears := retire - work;
      if retire <= work then RetireNotAfterStart
      else if insured > maxPossibleYears then YearsExceedSpan(insured, maxPossibleYears)
      else NoError
    else
      NoError
  }

  datatype Scenarios = Scenarios(
    current: CalculationResult,
    projected: CalculationResult,
    extendedCurrent: CalculationResult,
    extended: CalculationResult)

  const NoScenarios: Scenarios := Scenarios(EmptyResult, EmptyResult, EmptyResult, EmptyResult)

  /** `autoGrade ? autoGrade.toString() : '0'`: both no grade and grade 0 become "0". */
  function CurrentGradeText(autoGrade: Option<int>): (t: string)
    ensures autoGrade.None? || autoGrade.value == 0 ==> ParseNumber(t) == Some(0)
    ensures autoGrade.Some? && autoGrade.value > 0 ==> ParseNumber(t) == Some(autoGrade.value)
  {
    if autoGrade.Some? && autoGrade.value != 0 then
      ParseNumberOfNatToString(if autoGrade.value > 0 then autoGrade.value else 0);
      IntToString(autoGrade.value)
    else
      assert NatToString(0) == "0";
      ParseNumberOfNatToString(0);
      "0"
  }

  /**
   * The recalculation effect: the current scenario uses the derived grade and
   * the projected one the chosen salary, both over the insured years; the two
   * extended scenarios add five years, and are empty unless the years are positive.
   */
  function Recalculate(insuredYears: string, projectedSalary: string, autoGrade: Option<int>): (r: Scenarios)
    ensures autoGrade.None? || autoGrade == Some(0) ==> r.current == EmptyResult && r.extendedCurrent == EmptyResult
    ensures ParseNumber(insuredYears).None? || ParseNumber(insuredYears) == Some(0) ==> r == NoScenarios
    ensures !ValidInputs(projectedSalary, insuredYears) ==> r.projected == EmptyResult && r.extended == EmptyResult
    ensures ValidInputs(projectedSalary, insuredYears) ==>
      && r.projected != EmptyResult && r.projected.totalYears == ParseNumber(insuredYears).value
      && r.extended != EmptyResult && r.extended.totalYears == ParseNumber(insuredYears).value + 5
    ensures autoGrade.Some? && autoGrade.value > 0 && ParseNumber(insuredYears).Some? && ParseNumber(insuredYears).value > 0 ==>
      && r.current != EmptyResult && r.current.totalYears == ParseNumber(insuredYears).value
      && r.extendedCurrent != EmptyResult && r.extendedCurrent.totalYears == ParseNumber(insuredYears).value + 5
  {
    var currentGrade := CurrentGradeText(autoGrade);
    var current := CalculatePension(currentGrade, insuredYears, None);
    var projected := CalculatePension(projectedSalary, insuredYears, None);
    var years := ParseNumber(insuredYears);
    if years.Some? && years.value > 0 then
      var extYears := NatToString(years.value + 5);
      ParseNumberOfNatToString(years.value + 5);
      Scenarios(current, projected,
                CalculatePension(currentGrade, extYears, None),
                CalculatePension(projectedSalary, extYears, None))
    else
      Scenarios(current, projected, EmptyResult, EmptyResult)
  }

  /**
   * What each scenario compares, once the years are positive: the derived
   * grade (written as text and parsed back unchanged) and the projected salary,
   * each over the insured years and over five more, at 60 against 65.
   */
  lemma ScenarioAmounts(insuredYears: string, projectedSalary: string, autoGrade: Option<int>)
    requires ParseNumber(insuredYears).Some? && ParseNumber(insuredYears).value > 0
    ensures var r := Recalculate(insuredYears, projectedSalary, autoGrade);
            var years := ParseNumber(insuredYears).value;
            autoGrade.Some? && autoGrade.value > 0 ==>
              var g := autoGrade.value;
              && r.current.option1.age == 60 && r.current.option2.age == 65
              && r.current.option1.subLabel.None?
              && r.extendedCurrent.option1.age == 60 && r.extendedCurrent.option2.age == 65
              && r.extendedCurrent.option1.subLabel.None?
              && r.current.option1.amount == OptionAmount(g, years, 60)
              && r.current.option2.amount == OptionAmount(g, years, 65)
              && r.extendedCurrent.option1.amount == OptionAmount(g, years + 5, 60)
              && r.extendedCurrent.option2.amount == OptionAmount(g, years + 5, 65)
    ensures var r := Recalculate(insuredYears, projectedSalary, autoGrade);
            var years := ParseNumber(insuredYears).value;
            ValidInputs(projectedSalary, insuredYears) ==>
              var p := ParseNumber(projectedSalary).value;
              && r.projected.option1.age == 60 && r.projected.option2.age == 65
              && r.projected.option1.subLabel.None?
              && r.extended.option1.age == 60 && r.extended.option2.age == 65
              && r.extended.option1.subLabel.None?
              && r.projected.option1.amount == OptionAmount(p, years, 60)
              && r.projected.option2.amount == OptionAmount(p, years, 65)
              && r.extended.option1.amount == OptionAmount(p, years + 5, 60)
              && r.extended.option2.amount == OptionAmount(p, years + 5, 65)
  {
    ParseNumberOfNatToString(ParseNumber(insuredYears).value + 5);
    if autoGrade.Some? && autoGrade.value > 0 {
      assert ParseNumber(CurrentGradeText(autoGrade)) == Some(autoGrade.value);
    }
  }

  /** Working five more years never lowers either option of a scenario. */
  lemma ExtensionNeverLowersAmounts(insuredYears: string, projectedSalary: string, autoGrade: Option<int>)
    requires ParseNumber(insuredYears).Some? && ParseNumber(insuredYears).value > 0
    ensures var r := Recalculate(insuredYears, projectedSalary, autoGrade);
            && r.projected.option1.amount <= r.extended.option1.amount
            && r.projected.option2.amount <= r.extended.option2.amount
            && r.current.option1.amount <= r.extendedCurrent.option1.amount
            && r.current.option2.amount <= r.extendedCurrent.option2.amount
  {
    var years := ParseNumber(insuredYears).value;
    ParseNumberOfNatToString(years + 5);
    var grade := CurrentGradeText(autoGrade);
    if ValidInputs(projectedSalary, insuredYears) {
      var s := ParseNumber(projectedSalary).value;
      OptionAmountMonotoneInYears(s, years, years + 5, 60);
      OptionAmountMonotoneInYears(s, years, years + 5, 65);
    }
    if ValidInputs(grade, insuredYears) {
      var s := ParseNumber(grade).value;
      OptionAmountMonotoneInYears(s, years, years + 5, 60);
      OptionAmountMonotoneInYears(s, years, years + 5, 65);
    }
  }

  /** Everything the form shows that is derived from its fields. */
  datatype View = View(
    autoGrade: Option<int>,
    statutoryAge: int,
    validationError: ValidationError,
    results: Scenarios)

  /** The state the effects settle in after the fields last changed. */
  function Derive(s: CalculatorState): (v: View)
    requires WellFormed(s)
    ensures 60 <= v.statutoryAge <= 65
    ensures v.statutoryAge == RetirementAge.StatutoryAge(ParseNumber(s.birthYear))
    ensures v.results == Recalculate(s.insuredYears, s.projectedSalary, v.autoGrade)
    ensures v.autoGrade.None? <==> s.currentSalary == ""
    ensures v.validationError == NoError ==>
      s.workStartAge == "" || s.retirementAge == "" || s.insuredYears == ""
      || DigitsValue(s.workStartAge) + DigitsValue(s.insuredYears) <= DigitsValue(s.retirementAge)
  {
    var grade := AutoGrade(s.currentSalary);
    View(grade,
         RetirementAge.StatutoryAge(ParseNumber(s.birthYear)),
         Validate(s.workStartAge, s.retirementAge, s.insuredYears),
         Recalculate(s.insuredYears, s.projectedSalary, grade))
  }

  /**
   * The validation error never gates the results: two forms that agree on
   * salary, projected salary and years show the same four scenarios, whatever
   * their ages and however their validation turns out.
   */
  lemma ResultsIgnoreValidation(s1: CalculatorState, s2: CalculatorState)
    requires WellFormed(s1) && WellFormed(s2)
    requires s1.currentSalary == s2.currentSalary
    requires s1.projectedSalary == s2.projectedSalary
    requires s1.insuredYears == s2.insuredYears
    ensures Derive(s1).results == Derive(s2).results
  {
  }

  /** A form with an error and the same form without it show the same scenarios. */
  lemma ErrorAndNoErrorShowSameResults(currentSalary: string, projectedSalary: string)
    requires Acceptable(currentSalary) && Acceptable(projectedSalary)
    ensures var bad := CalculatorState("", "40", "50", "30", currentSalary, projectedSalary);
            var good := bad.(retirementAge := "70");
            && WellFormed(bad) && WellFormed(good)
            && Derive(bad).validationError == YearsExceedSpan(30, 10)
            && Derive(good).validationError == NoError
            && Derive(bad).results == Derive(good).results
  {
    var bad := CalculatorState("", "40", "50", "30", currentSalary, projectedSalary);
    var good := bad.(retirementAge := "70");
    assert IsDigits("40") && IsDigits("50") && IsDigits("30") && IsDigits("70");
    assert DigitsValue("40") == 40 by { assert "40"[..1] == "4"; }
    assert DigitsValue("50") == 50 by { assert "50"[..1] == "5"; }
    assert DigitsValue("70") == 70 by { assert "70"[..1] == "7"; }
    assert DigitsValue("30") == 30 by { assert "30"[..1] == "3"; }
    assert Validate("40", "50", "30") == YearsExceedSpan(30, 10);
    assert Validate("40", "70", "30") == NoError;
    ResultsIgnoreValidation(bad, good);
  }

  /**
   * Whatever the validation outcome, a positive projected salary over positive
   * years yields computed projected and extended scenarios.
   */
  lemma ProjectionComputedDespiteErrors(s: CalculatorState)
    requires WellFormed(s)
    requires ValidInputs(s.projectedSalary, s.insuredYears)
    ensures Derive(s).results.projected != EmptyResult
    ensures Derive(s).results.extended != EmptyResult
  {
  }
}

=== FILE: grades.dfy ===
/** The labour-insurance salary grade table and the salary-to-grade lookup. */
module Grades {
  import opened Wrappers

  /** Bracket ceilings, ascending; the last one is the cap used for old-age pensions. */
  const Table: seq<int> := [
    27470, 27600, 28800, 30300, 31800,
    33300, 34800, 36300, 38200, 40100,
    42000, 43900, 45800
  ]

  const MaxGrade: int := 45800

  predicate StrictlyAscending(t: seq<int>) {
    forall i, j :: 0 <= i < j < |t| ==> t[i] < t[j]
  }

  lemma TableShape()
    ensures |Table| == 13 && StrictlyAscending(Table)
    ensures Table[0] > 0 && Table[|Table| - 1] == MaxGrade
    ensures forall g :: g in Table ==> 0 < g <= MaxGrade
  {
  }

  /**
   * `Array.prototype.find(g => g >= s)`: the first entry of `t` that is at
   * least `s`, or `None` (JavaScript `undefined`) when no entry is.
   */
  function FindAtLeast(t: seq<int>, s: int): (r: Option<int>)
    ensures r.None? <==> forall k :: 0 <= k < |t| ==> t[k] < s
    ensures r.Some? ==> exists i :: 0 <= i < |t| && t[i] == r.value
                                    && (forall k :: 0 <= k < i ==> t[k] < s)
    ensures r.Some? ==> r.value >= s
  {
    if |t| == 0 then None
    else if t[0] >= s then Some(t[0])
    else
      var rest := FindAtLeast(t[1..], s);
      if rest.Some? then
        ghost var i :| 0 <= i < |t| - 1 && t[1..][i] == rest.value
                       && (forall k :: 0 <= k < i ==> t[1..][k] < s);
        assert t[i + 1] == rest.value;
        assert forall k :: 0 <= k < i + 1 ==> t[k] < s by {
          forall k | 0 <= k < i + 1 ensures t[k] < s {
            if k > 0 { assert t[k] == t[1..][k - 1]; }
          }
        }
        rest
      else
        assert forall k :: 0 <= k < |t| ==> t[k] < s by {
          forall k | 0 <= k < |t| ensures t[k] < s {
            if k > 0 { assert t[k] == t[1..][k - 1]; }
          }
        }
        rest
  }

  /**
   * `getInsuranceGrade`: 0 for a non-positive salary, else the first ceiling
   * at or above it, else the cap. The `|| 45800` fallback also catches a
   * found grade of 0, which the table never contains.
   */
  function Grade(salary: int): (g: int)
    ensures g == 0 <==> salary <= 0
    ensures salary > 0 ==> g in Table
    ensures 0 < salary <= MaxGrade ==> g >= salary
    ensures 0 < salary <= MaxGrade ==> forall t :: t in Table && t >= salary ==> g <= t
    ensures salary > MaxGrade ==> g == MaxGrade
  {
    if salary <= 0 then 0
    else
      var found := FindAtLeast(Table, salary);
      var g := if found.Some? && found.value != 0 then found.value else MaxGrade;
      assert g in Table by {
        if found.Some? {
          var i :| 0 <= i < |Table| && Table[i] == found.value
                   && (forall k :: 0 <= k < i ==> Table[k] < salary);
        }
        assert Table[|Table| - 1] == MaxGrade;
      }
      assert 0 < salary <= MaxGrade ==> forall t :: t in Table && t >= salary ==> g <= t by {
        if 0 < salary <= MaxGrade {
          assert Table[|Table| - 1] >= salary;
          var i :| 0 <= i < |Table| && Table[i] == found.value
                   && (forall k :: 0 <= k < i ==> Table[k] < salary);
          forall t | t in Table && t >= salary ensures g <= t {
            var j :| 0 <= j < |Table| && Table[j] == t;
            assert !(j < i);
            TableShape();
          }
        }
      }
      g
  }

  /** A larger salary never maps to a smaller grade. */
  lemma GradeMonotone(s1: int, s2: int)
    requires s1 <= s2
    ensures Grade(s1) <= Grade(s2)
  {
    if s1 > 0 && s2 <= MaxGrade {
      assert Grade(s2) in Table && Grade(s2) >= s1;
    }
  }

  /** Every grade is its own grade: looking a grade up again changes nothing. */
  lemma GradeIdempotent(salary: int)
    requires salary > 0
    ensures Grade(Grade(salary)) == Grade(salary)
  {
    var g := Grade(salary);
    assert g in Table;
    TableShape();
  }

  /** The boundary cases of the table: an exact ceiling, one above it, and above the cap. */
  lemma GradeExamples()
    ensures Grade(27470) == 27470
    ensures Grade(27471) == 27600
    ensures Grade(1) == 27470
    ensures Grade(45800) == 45800
    ensures Grade(50000) == 45800
  {
  }
}

=== FILE: pension.dfy ===
/**
 * The old-age pension estimate: one option's monthly amount for a claim age,
 * and the two-option comparison built from a salary and a number of years.
 *
 * All arithmetic is exact. The accrual rate 1.55% and the multiplier
 * 1 + 4% per year away from 65 combine into `salary * years * 155 * p`
 * millionths, where `p` is the multiplier in percent.
 */
module Pension {
  import opened Wrappers
  import opened Decimal

  datatype PensionOption = PensionOption(age: int, amount: int, labelText: string, subLabel: Option<string>)

  datatype CalculationResult = CalculationResult(option1: PensionOption, option2: PensionOption, totalYears: int)

  /** The "nothing to show yet" result: zero ages and amounts, empty labels. */
  const EmptyOption: PensionOption := PensionOption(0, 0, "", None)
  const EmptyResult: CalculationResult := CalculationResult(EmptyOption, EmptyOption, 0)

  const EarliestClaimAge: int := 60
  const BaselineAge: int := 65
  const MaxShiftYears: int := 5
  const PercentPerYear: int := 4

  const ExtendedNote: string := "(往後+5年)"

  function Max(a: int, b: int): int {
    if a >= b then a else b
  }

  function Min(a: int, b: int): int {
    if a <= b then a else b
  }

  /**
   * The age multiplier in percent: the claim age is raised to at least 60,
   * its distance from 65 is capped at five years either way, and each year
   * moves the payment by 4%.
   */
  function AdjustmentPercent(claimAge: int): (p: int)
    ensures 80 <= p <= 120
    ensures claimAge <= 60 ==> p == 80
    ensures claimAge >= 70 ==> p == 120
    ensures 60 <= claimAge <= 70 ==> p == 100 + 4 * (claimAge - 65)
  {
    var effectiveAge := Max(claimAge, EarliestClaimAge);
    var diff := Max(-MaxShiftYears, Min(MaxShiftYears, effectiveAge - BaselineAge));
    100 + PercentPerYear * diff
  }

  /** A later claim never lowers the multiplier. */
  lemma AdjustmentPercentMonotone(a1: int, a2: int)
    requires a1 <= a2
    ensures AdjustmentPercent(a1) <= AdjustmentPercent(a2)
  {
  }

  /** `Math.round(n / 1000000)` for non-negative `n`: the nearest whole number, halves up. */
  function RoundMillionths(n: nat): (r: nat)
    ensures -500000 < 1000000 * r - n <= 500000
  {
    (2 * n + 1000000) / 2000000
  }

  lemma RoundMillionthsMonotone(n1: nat, n2: nat)
    requires n1 <= n2
    ensures RoundMillionths(n1) <= RoundMillionths(n2)
  {
  }

  /** The exact amount, in millionths of a currency unit, before rounding. */
  function ExactMillionths(salary: nat, years: nat, claimAge: int): nat {
    salary * years * 155 * AdjustmentPercent(claimAge)
  }

  /**
   * `calculateOptionAmount`: the monthly amount is the whole number nearest to
   * salary * years * 1.55% * multiplier.
   */
  function OptionAmount(salary: nat, years: nat, claimAge: int): (amount: nat)
    ensures -500000 < 1000000 * amount - salary * years * 155 * AdjustmentPercent(claimAge) <= 500000
    ensures salary == 0 || years == 0 ==> amount == 0
  {
    RoundMillionths(ExactMillionths(salary, years, claimAge))
  }

  lemma MulMonotone(a: nat, b: nat, c: nat)
    requires a <= b
    ensures a * c <= b * c
  {
  }

  /** Claiming before 60 pays what claiming at 60 does. */
  lemma OptionAmountBelowSixty(salary: nat, years: nat, claimAge: int)
    requires claimAge < 60
    ensures OptionAmount(salary, years, claimAge) == OptionAmount(salary, years, 60)
  {
  }

  /** Deferring past 70 pays what deferring to 70 does. */
  lemma OptionAmountFromSeventy(salary: nat, years: nat, claimAge: int)
    requires claimAge >= 70
    ensures OptionAmount(salary, years, claimAge) == OptionAmount(salary, years, 70)
  {
  }

  lemma OptionAmountMonotoneInAge(salary: nat, years: nat, a1: int, a2: int)
    requires a1 <= a2
    ensures OptionAmount(salary, years, a1) <= OptionAmount(salary, years, a2)
  {
    AdjustmentPercentMonotone(a1, a2);
    MulMonotone(AdjustmentPercent(a1), AdjustmentPercent(a2), salary * years * 155);
    assert ExactMillionths(salary, years, a1) <= ExactMillionths(salary, years, a2);
    RoundMillionthsMonotone(ExactMillionths(salary, years, a1), ExactMillionths(salary, years, a2));
  }

  lemma OptionAmountMonotoneInSalary(s1: nat, s2: nat, years: nat, claimAge: int)
    requires s1 <= s2
    ensures OptionAmount(s1, years, claimAge) <= OptionAmount(s2, years, claimAge)
  {
    var k := years * 155 * AdjustmentPercent(claimAge);
    MulMonotone(s1, s2, k);
    assert ExactMillionths(s1, years, claimAge) == s1 * k;
    assert ExactMillionths(s2, years, claimAge) == s2 * k;
    RoundMillionthsMonotone(ExactMillionths(s1, years, claimAge), ExactMillionths(s2, years, claimAge));
  }

  lemma OptionAmountMonotoneInYears(salary: nat, y1: nat, y2: nat, claimAge: int)
    requires y1 <= y2
    ensures OptionAmount(salary, y1, claimAge) <= OptionAmount(salary, y2, claimAge)
  {
    var k := salary * 155 * AdjustmentPercent(claimAge);
    MulMonotone(y1, y2, k);
    assert ExactMillionths(salary, y1, claimAge) == y1 * k;
    assert ExactMillionths(salary, y2, claimAge) == y2 * k;
    RoundMillionthsMonotone(ExactMillionths(salary, y1, claimAge), ExactMillionths(salary, y2, claimAge));
  }

  /** Worked figures: 30000 a month over 30 years gives 11160 at 60 and 13950 at 65. */
  lemma OptionAmountExamples()
    ensures OptionAmount(30000, 30, 60) == 11160
    ensures OptionAmount(30000, 30, 65) == 13950
    ensures OptionAmount(30000, 30, 70) == 16740
    ensures OptionAmount(45800, 35, 60) == 19877
    ensures OptionAmount(45800, 35, 65) == 24847
  {
  }

  /** The note under an option claimed before 60: payment starts at the given age. */
  function StartAgeNote(startAge: int): string {
    "(依規定" + IntToString(startAge) + "歲起領)"
  }

  lemma EarliestStartNote()
    ensures StartAgeNote(60) == "(依規定60歲起領)"
  {
    assert NatToString(6) == "6";
    assert NatToString(60) == "60";
  }

  /** `parseInt(userRetireAgeStr) || 60`: a missing (`NaN`) or zero age becomes 60. */
  function UserAge(userAge: Option<int>): (age: int)
    ensures age != 0
    ensures userAge.Some? && userAge.value != 0 ==> age == userAge.value
    ensures userAge.None? || userAge == Some(0) ==> age == 60
  {
    if userAge.None? || userAge.value == 0 then EarliestClaimAge else userAge.value
  }

  /** Salary and years both parse and are positive. */
  predicate ValidInputs(salaryStr: string, yearsStr: string)
    ensures ValidInputs(salaryStr, yearsStr) <==>
      IsDigits(salaryStr) && IsDigits(yearsStr) && DigitsValue(salaryStr) > 0 && DigitsValue(yearsStr) > 0
  {
    var salary := ParseNumber(salaryStr);
    var years := ParseNumber(yearsStr);
    salary.Some? && years.Some? && salary.value > 0 && years.value > 0
  }

  /**
   * `calculatePension`: the empty result unless salary and years are positive
   * numbers; otherwise option 1 at the user's age (claimed from 60 at the
   * earliest) and option 2 five years after the effective start age.
   */
  function CalculatePension(salaryStr: string, yearsStr: string, userAge: Option<int>): (r: CalculationResult)
    ensures r == EmptyResult <==> !ValidInputs(salaryStr, yearsStr)
    ensures ValidInputs(salaryStr, yearsStr) ==>
      && r.totalYears == ParseNumber(yearsStr).value
      && r.option1.age == UserAge(userAge)
      && r.option2.age == Max(UserAge(userAge), 60) + 5
      && r.option1.amount <= r.option2.amount
      && r.option1.amount == OptionAmount(ParseNumber(salaryStr).value, ParseNumber(yearsStr).value, r.option1.age)
      && r.option2.amount == OptionAmount(ParseNumber(salaryStr).value, ParseNumber(yearsStr).value, r.option2.age)
      && r.option1.labelText == IntToString(r.option1.age) + "歲退休"
      && r.option2.labelText == IntToString(r.option2.age) + "歲"
      && (r.option1.subLabel.Some? <==> r.option1.age < 60)
      && (r.option1.age < 60 ==> r.option1.subLabel == Some("(依規定60歲起領)"))
      && r.option2.subLabel == Some(ExtendedNote)
  {
    var salary := ParseNumber(salaryStr);
    var years := ParseNumber(yearsStr);
    if salary.None? || years.None? || salary.value <= 0 || years.value <= 0 then
      EmptyResult
    else
      var age := UserAge(userAge);
      var effectiveStartAge := Max(age, EarliestClaimAge);
      var age1 := age;
      var amount1 := OptionAmount(salary.value, years.value, age1);
      var age2 := effectiveStartAge + 5;
      var amount2 := OptionAmount(salary.value, years.value, age2);
      OptionAmountMonotoneInAge(salary.value, years.value, age1, age2);
      var subLabel1 := if age1 < 60 then Some(StartAgeNote(effectiveStartAge)) else None;
      EarliestStartNote();
      CalculationResult(
        PensionOption(age1, amount1, IntToString(age1) + "歲退休", subLabel1),
        PensionOption(age2, amount2, IntToString(age2) + "歲", Some(ExtendedNote)),
        years.value)
  }

  /**
   * With no retirement age supplied, as every caller does, the comparison is
   * claiming at 60 (a 20% reduction) against claiming at 65 (the full amount).
   */
  lemma DefaultComparesSixtyWithSixtyFive(salaryStr: string, yearsStr: string)
    requires ValidInputs(salaryStr, yearsStr)
    ensures var r := CalculatePension(salaryStr, yearsStr, None);
            var base := ParseNumber(salaryStr).value * ParseNumber(yearsStr).value * 155;
            && r.option1.age == 60 && r.option2.age == 65
            && r.option1.subLabel.None?
            && -500000 < 1000000 * r.option1.amount - base * 80 <= 500000
            && -500000 < 1000000 * r.option2.amount - base * 100 <= 500000
  {
  }

  /** The comparison for 30000 a month over 30 years, as the form requests it. */
  lemma CalculatePensionExample()
    ensures var r := CalculatePension("30000", "30", None);
            && r.option1 == PensionOption(60, 11160, "60歲退休", None)
            && r.option2 == PensionOption(65, 13950, "65歲", Some(ExtendedNote))
            && r.totalYears == 30
  {
    assert DigitsValue("30") == 30 by { assert "30"[..1] == "3"; }
    assert DigitsValue("30000") == 30000 by {
      assert "30000"[..4] == "3000";
      assert "3000"[..3] == "300";
      assert "300"[..2] == "30";
      assert "30"[..1] == "3";
    }
    assert IntToString(60) == "60";
    assert IntToString(65) == "65";
  }
}

=== FILE: retirement_age.dfy ===
/** The statutory full-pension age by birth year in the Minguo (ROC) calendar. */
module RetirementAge {
  import opened Wrappers

  /**
   * `getStatutoryRetirementAge`: `None` is a `NaN` year. Invalid years
   * default to 65; births up to year 46 may claim at 60, each later year
   * adds one, and from year 51 on the age is 65.
   */
  function StatutoryAge(rocYear: Option<int>): (age: int)
    ensures 60 <= age <= 65
    ensures rocYear.None? ==> age == 65
    ensures rocYear.Some? && rocYear.value <= 0 ==> age == 65
    ensures rocYear.Some? && rocYear.value >= 51 ==> age == 65
    ensures rocYear == Some(50) ==> age == 64
    ensures rocYear == Some(49) ==> age == 63
    ensures rocYear == Some(48) ==> age == 62
    ensures rocYear == Some(47) ==> age == 61
    ensures rocYear.Some? && 0 < rocYear.value <= 46 ==> age == 60
  {
    if rocYear.None? || rocYear.value <= 0 then 65
    else if rocYear.value >= 51 then 65
    else if rocYear.value == 50 then 64
    else if rocYear.value == 49 then 63
    else if rocYear.value == 48 then 62
    else if rocYear.value == 47 then 61
    else 60
  }

  /** Closed form of the table for valid years: 60 plus the years past 46, at most 5. */
  function PhaseIn(rocYear: int): (age: int)
    requires rocYear > 0
  {
    60 + if rocYear <= 46 then 0 else if rocYear >= 51 then 5 else rocYear - 46
  }

  lemma StatutoryAgeIsPhaseIn(rocYear: int)
    requires rocYear > 0
    ensures StatutoryAge(Some(rocYear)) == PhaseIn(rocYear)
  {
  }

  /** Over valid years, a later birth year never lowers the statutory age. */
  lemma StatutoryAgeMonotone(y1: int, y2: int)
    requires 0 < y1 <= y2
    ensures StatutoryAge(Some(y1)) <= StatutoryAge(Some(y2))
  {
  }
}

=== FILE: wrappers.dfy ===
/** Optional values: `None` stands for a JavaScript `NaN`, `undefined` or `null`. */
module Wrappers {

  datatype Option<+T> = None | Some(value: T)
}
